=== FILE: README.md ===
# Air-hockey ball engine coordinator, in Dafny

This project models the coordinator of the air-hockey client's ball
simulation (`BallEngine`). The engine owns two ball regions: an outer play
area and a goal area centred in it, a quarter of its width and height. Once
per frame, `update(now)` scans the outer region's balls. Every ball that is
not held by the user and lies strictly inside the goal rectangle is removed
from the outer list and appended to the goal list. Its owning-region
back-reference is pointed at the goal region, and a goal-scored event is sent
to the installed callback. Only after the whole scan does the outer region run
its own update, and then the goal region. `reset(now, numBalls)` rebuilds both
regions: the outer one gets `numBalls` randomly placed, randomly aimed balls,
and the goal one starts empty. `setNow` forces both regions' time base.
`addIncomingPuck` appends a ball built elsewhere to the outer list.

Files and modules:

- `results.dfy` (`Results`): `Option` for Java's nullable references and
  `Result` for its exceptions.
- `geometry.dfy` (`Geometry`): rectangles, the derivation of the goal
  rectangle, and the open-boundary containment test.
- `balls.dfy` (`Balls`): the ball record with its region back-reference, and
  the trace records of a frame: goal-scored events delivered to the engine's
  callback, and a record of each region's own update.
- `transfer.dfy` (`Transfer`): the goal-transfer scan.
  - `Keep` and `Take` are its reference definitions, as a filter and its
    complement.
  - `TransferScan` mirrors the source's remove-while-iterating loop. It is
    proved to compute exactly `Keep`, `Take` and the events.
- `engine.dfy` (`BallEngine`): the engine as an immutable state with one pure
  function per public operation.
- `engine_properties.dfy` (`EngineProperties`): the standing invariant every
  operation keeps, plus what update and reset do.

How the collaborators are represented:

- A ball is a record with an identity number standing for Java object
  identity. Reset draws fresh identities from a counter in the engine.
- A region is its bounds, its ball list, its time base, its goal flag and the
  callback it was given.
- A region's own update appends a `RegionUpdated` record to the event log.
  The record holds the region's callback, which region it was, the time and
  the balls the region held. The update also sets the region's time base.
  Nothing else of the region's physics is modelled.
- Callbacks are identified by numbers. Delivering a goal-scored event means
  appending it to the engine's log. A `RegionUpdated` record is a trace entry
  for a region's own update, carrying the callback that region holds; it is
  not an event any callback receives.
- `Math.random()` becomes a sequence of draws passed to `Reset`. Each ball
  uses three draws, in the order the source evaluates them: angle, then x,
  then y.
- A failing call returns an `Error` instead of throwing:
  - `NotReset`: any region operation before the first reset, where the
    source dereferences a null region.
  - `NullCallBack`: an update that would score a goal while no callback is
    installed, where the source dereferences a null callback.
  - `IllegalCapacity`: a reset with a negative ball count, where the source's
    `new ArrayList<Ball>(numBalls)` throws.
- These are the failures the model represents; a fourth, a null incoming
  puck, is not representable (see "## Left out").

Where this model follows the code rather than its comments:

- `setCallBack` replaces only the engine's own callback. The regions keep the
  callback they were given at the last reset. So after a `setCallBack`
  without a reset, goal events go to the new callback, while region events
  still go to the old one (`EngineProperties.SetCallBackSplitsEvents`).
- The constructor validates nothing. Degenerate bounds are accepted, and the
  non-degenerate case appears only as a premise of the geometric lemmas.
- The comment at `BallEngine.java:96` says a held ball's timestamp is not
  updated. The code only skips held balls in the goal test, so that is all the
  model does.
- Balls built by `reset` keep the back-reference the builder gives them. The
  engine never sets it, so they are tagged `NoRegion`. The region constructor
  is not part of this model.

## Model

| member | source | states |
|---|---|---|
| `Geometry.GoalBounds` | AirHockeyClient/src/edu/cmu/cs440/airhockey/BallEngine.java:43-51 | the goal rectangle is a quarter of the outer width and a quarter of the outer height, and it has the same centre as the outer rectangle |
| `Geometry.GoalStrictlyInside` | AirHockeyClient/src/edu/cmu/cs440/airhockey/BallEngine.java:43-51 | for bounds with positive width and height, the goal rectangle is non-degenerate and lies strictly inside the outer one, three eighths of the outer extent in from every edge |
| `Geometry.GoalBoundsExample` | AirHockeyClient/src/edu/cmu/cs440/airhockey/BallEngine.java:43-51 | outer bounds (0, 100, 0, 200) give the goal (37.5, 62.5, 75, 125) |
| `Geometry.StrictlyInside` | AirHockeyClient/src/edu/cmu/cs440/airhockey/BallEngine.java:114-117 | a point is in the goal only when the rectangle is non-degenerate and the point lies on none of its four edges |
| `Geometry.BoundaryIsOpen` | AirHockeyClient/src/edu/cmu/cs440/airhockey/BallEngine.java:114-117 | a point on any goal edge is not in the goal; a point any positive distance inside the left edge, at a height strictly inside, is in the goal |
| `Transfer.Qualifies` | AirHockeyClient/src/edu/cmu/cs440/airhockey/BallEngine.java:95-97 | only a free ball can be moved, and only into a non-degenerate goal |
| `Transfer.Keep` | AirHockeyClient/src/edu/cmu/cs440/airhockey/BallEngine.java:92-106 | the kept balls and the moved balls together are as many as the scanned balls, and no kept ball qualifies |
| `Transfer.Take` | AirHockeyClient/src/edu/cmu/cs440/airhockey/BallEngine.java:92-106 | no more balls are moved than scanned, and every moved ball qualifies |
| `Transfer.Retag` | AirHockeyClient/src/edu/cmu/cs440/airhockey/BallEngine.java:101 | pointing the moved balls at the goal region keeps their number, leaves every one of them pointing at the goal region, and changes nothing else about them |
| `Transfer.GoalEvents` | AirHockeyClient/src/edu/cmu/cs440/airhockey/BallEngine.java:103 | one goal-scored notification per moved ball, each addressed to the given callback, stamped with the frame time and carrying one of the moved balls |
| `Transfer.TransferScan` | AirHockeyClient/src/edu/cmu/cs440/airhockey/BallEngine.java:92-106 | the cursor loop with in-place removal leaves exactly the non-qualifying balls in the outer list, in order; it appends the qualifying balls to the goal list in scan order, re-tagged to the goal region; it emits one goal event per moved ball, in the same order |
| `Transfer.PartitionConserves` | AirHockeyClient/src/edu/cmu/cs440/airhockey/BallEngine.java:92-106 | the kept balls and the moved balls together form the scanned list as a multiset: nothing is lost or duplicated |
| `Transfer.PartitionSides` | AirHockeyClient/src/edu/cmu/cs440/airhockey/BallEngine.java:95-97 | every kept ball was scanned and does not qualify; every moved ball was scanned, is not held and lies strictly inside the goal |
| `Transfer.PartitionMembership` | AirHockeyClient/src/edu/cmu/cs440/airhockey/BallEngine.java:95-100 | a scanned ball stays in the outer list if and only if it does not qualify, and moves if and only if it does |
| `Transfer.KeepAppend` | AirHockeyClient/src/edu/cmu/cs440/airhockey/BallEngine.java:92-99 | keeping distributes over concatenation, so the outer list keeps its relative order |
| `Transfer.TakeAppend` | AirHockeyClient/src/edu/cmu/cs440/airhockey/BallEngine.java:92-100 | taking distributes over concatenation, so moved balls arrive in scan order |
| `Transfer.HeldBallExempt` | AirHockeyClient/src/edu/cmu/cs440/airhockey/BallEngine.java:95-105 | a held ball is never moved, even strictly inside the goal; once released at such a position, the next scan moves it |
| `Transfer.TakeNonEmpty` | AirHockeyClient/src/edu/cmu/cs440/airhockey/BallEngine.java:95-103 | the scan moves some ball exactly when some scanned ball is free and strictly inside the goal |
| `BallEngine.New` | AirHockeyClient/src/edu/cmu/cs440/airhockey/BallEngine.java:36-52 | construction stores the bounds and radius and derives a goal a quarter of the size, sharing the centre; no regions or callback exist yet |
| `BallEngine.SetCallBack` | AirHockeyClient/src/edu/cmu/cs440/airhockey/BallEngine.java:60-62 | installs the engine's callback and leaves the regions, with their own callbacks, untouched |
| `BallEngine.SetNow` | AirHockeyClient/src/edu/cmu/cs440/airhockey/BallEngine.java:82-85 | fails exactly before the first reset; otherwise both regions take the given time and nothing else changes: not the engine's bounds, goal bounds, callback or log, and not either region's bounds, ball list, goal flag or callback |
| `BallEngine.Update` | AirHockeyClient/src/edu/cmu/cs440/airhockey/BallEngine.java:91-109 | fails exactly when the scan fails: before the first reset, or when some free ball is strictly inside the goal while no callback is installed; otherwise the engine keeps its bounds, radius, callback and identity counter, each region keeps its bounds, goal flag and callback, both regions end on the frame time, and the log only grows |
| `BallEngine.Scan` | AirHockeyClient/src/edu/cmu/cs440/airhockey/BallEngine.java:92-106 | the scan on its own fails in the same cases; otherwise it changes only the two ball lists and the log, and every other field of the engine and of each region is as before |
| `BallEngine.RegionSteps` | AirHockeyClient/src/edu/cmu/cs440/airhockey/BallEngine.java:107-108 | the outer region updates and then the goal region: two trace records are appended in that order, each naming its region's callback and goal flag, the frame time and the ball list the region holds when its update begins; both regions take the frame time, and each region is otherwise as before, its ball list included, because the region physics that would move or drop balls is not modelled |
| `BallEngine.Reset` | AirHockeyClient/src/edu/cmu/cs440/airhockey/BallEngine.java:127-147 | fails exactly on a negative count; otherwise the outer region holds exactly that many balls and the goal region none, and only the regions and the identity counter change: the engine's bounds, goal bounds, radius, callback and log are as before |
| `BallEngine.AddIncomingPuck` | AirHockeyClient/src/edu/cmu/cs440/airhockey/BallEngine.java:158-160 | fails exactly before the first reset; otherwise the ball, as given, is appended at the end of the outer list, and nothing else changes: not the goal region, not the outer region's other fields, and not the engine's bounds, callback or log |
| `BallEngine.NewBall` | AirHockeyClient/src/edu/cmu/cs440/airhockey/BallEngine.java:130-135 | a reset ball has the next identity, the engine radius and the reset time, is free and has no owning region; draws in [0, 1) over non-degenerate bounds place it inside the outer rectangle, half-open at the upper edges, and aim it in [0, 2 pi) |
| `EngineProperties.NewIsValid` | AirHockeyClient/src/edu/cmu/cs440/airhockey/BallEngine.java:36-52 | a newly constructed engine satisfies the standing invariant |
| `EngineProperties.SetCallBackPreservesValid` | AirHockeyClient/src/edu/cmu/cs440/airhockey/BallEngine.java:60-62 | installing a callback keeps the invariant |
| `EngineProperties.SetNowPreservesValid` | AirHockeyClient/src/edu/cmu/cs440/airhockey/BallEngine.java:82-85 | setting the time keeps the invariant, including both regions sharing one time base |
| `EngineProperties.ResetEstablishesValid` | AirHockeyClient/src/edu/cmu/cs440/airhockey/BallEngine.java:127-147 | after a reset the outer region is the non-goal region over the outer bounds, the goal region is over the goal bounds, and no outer ball points at the goal region |
| `EngineProperties.UpdatePreservesValid` | AirHockeyClient/src/edu/cmu/cs440/airhockey/BallEngine.java:91-109 | the update keeps the invariant: every goal-list ball points at the goal region, no outer-list ball does, and the time bases agree |
| `EngineProperties.AddIncomingPuckPreservesValid` | AirHockeyClient/src/edu/cmu/cs440/airhockey/BallEngine.java:158-160 | adding a puck keeps the invariant, provided the puck does not already point at the goal region (the engine does not set it) |
| `EngineProperties.ScanConservesBalls` | AirHockeyClient/src/edu/cmu/cs440/airhockey/BallEngine.java:92-106 | across both regions, the scan keeps the same multiset of balls, up to back-references |
| `EngineProperties.ScanTransfers` | AirHockeyClient/src/edu/cmu/cs440/airhockey/BallEngine.java:92-106 | once the scan is over, the outer list holds exactly the scanned balls that are held or outside the goal, so no free ball inside the goal is left behind; the goal list keeps its old balls first and gains the moved balls in scan order, each free, strictly inside and pointing at the goal region |
| `EngineProperties.UpdateLog` | AirHockeyClient/src/edu/cmu/cs440/airhockey/BallEngine.java:99-108 | the log gains one goal event per ball the scan moved, in scan order, with the engine's callback and the frame time; then the outer region's update record and then the goal region's, each with that region's callback and the ball list the scan left it |
| `EngineProperties.UpdateMovedBallsGetGoalPhysics` | AirHockeyClient/src/edu/cmu/cs440/airhockey/BallEngine.java:99-108 | every scanned ball that is free and strictly inside the goal is absent from the ball list the outer region's update record carries, and present, pointing at the goal region, in the list the goal region's update record carries; both regions end on the frame time |
| `EngineProperties.SetCallBackSplitsEvents` | AirHockeyClient/src/edu/cmu/cs440/airhockey/BallEngine.java:60-62 | after replacing the callback, later goal events go to the new callback, while region update events go to the callbacks the regions were built with |
| `EngineProperties.ResetPopulates` | AirHockeyClient/src/edu/cmu/cs440/airhockey/BallEngine.java:127-147 | a reset builds exactly the requested number of outer balls and no goal balls; each ball has the engine radius, the reset time, is not held, has no owning region set and has a fresh, distinct identity; both regions get the current callback |
| `EngineProperties.ResetPlacement` | AirHockeyClient/src/edu/cmu/cs440/airhockey/BallEngine.java:130-135 | with draws in [0, 1) and non-degenerate bounds, every reset ball starts with x in [minX, maxX), y in [minY, maxY) and angle in [0, 2 pi) |
| `EngineProperties.AddIncomingPuckConserves` | AirHockeyClient/src/edu/cmu/cs440/airhockey/BallEngine.java:158-160 | adding a puck grows the combined contents by exactly that ball and leaves the goal list unchanged |

## Left out

- The regions' own physics is not part of this model: ball motion,
  ball-ball collisions, wall bounces and edge exits. The same goes for the
  `onBallHitsBall` and `onBallExitsRegion` events they raise. A region update
  is represented only by the record it leaves in the log and by its new time
  base.
- Because of that, `RegionSteps` leaves every position and both ball lists as
  the scan left them. In the source a region's update moves balls and may
  drop the ones that leave, so a ball can sit strictly inside the goal again
  right after `update` returns. The model promises nothing about the engine
  after the region steps beyond what `Update` and `UpdateLog` state; the
  scan's effect is stated on `Scan`, and the region updates are seen through
  the ball lists their trace records carry.
- `BallRegion`'s constructor is outside this model, so whether it sets the
  back-references or the initial time of the balls it receives is not
  modelled. Reset balls stay `NoRegion`, and a new region's time is unset.
- The `Ball.Builder` internals are left out, including speed and any field
  beyond identity, position, angle, radius, creation time, held flag and
  back-reference.
- Float rounding is not modelled: positions and bounds are real numbers. The
  source casts the random draw to `float`, and a draw close to 1 can round to
  1.0 there. So in the source a reset ball can start exactly on the upper
  edge. `BallEngine.NewBall` and `EngineProperties.ResetPlacement` state the
  exact-arithmetic interval.
- The `now` counter is an unbounded integer. The source uses a Java `long`,
  whose overflow is not modelled.
- `Math.random()` and the system clock are inputs, not effects. `Reset`
  requires enough draws for the balls it builds.
- The `NullCallBack` failure drops the whole update. Partial state is not
  modelled: in the source the first moved ball has already left the outer
  list and joined the goal list when the null callback is dereferenced.
- The callback is assumed not to call back into the engine or change the
  ball it receives; delivering a goal-scored event only appends it to the
  log. In the source `onGoalScored` runs inside the scan's iterator
  (lines 92-106), so a re-entrant `addIncomingPuck` throws
  ConcurrentModificationException at line 94, a re-entrant `reset` leaves
  the scan on the discarded list while line 100 adds to the new goal region,
  and a change to the ball it receives also changes the ball in the goal
  list.
- A null incoming puck is not representable, because a `Ball` value cannot
  be null. In the source `addIncomingPuck` accepts null (`BallEngine.java:159`
  appends it to the outer list), and the next `update` throws when it calls
  `isPressed()` on it at line 95.
- `getRegion` and `getGoalRegion` are plain reads of the engine's `regions`
  field and have no separate members.

=== FILE: balls.dfy ===
/** The entities the engine coordinates: balls with their owning-region
    back-reference, and the events the engine and its regions raise towards
    the installed callback. */
module Balls {
  import opened Results

  /** A callback (event sink) object, identified by an opaque number. */
  type CallBack = nat

  /** A ball's back-reference to the region that owns it. `NoRegion` is the
      value of a freshly built ball whose owner was never set by the engine.
      No operation of the engine produces `OuterRegion`: it exists only so
      that an incoming puck, built elsewhere, can arrive carrying it. */
  datatype RegionTag = NoRegion | OuterRegion | GoalRegion

  /** A ball as the engine sees it. `id` stands for object identity, so two
      balls built at different times are never equal. */
  datatype Ball = Ball(
    id: nat,
    x: real,
    y: real,
    angle: real,
    radius: real,
    createdAt: int,
    pressed: bool,
    region: RegionTag)

  /** The trace of a frame. `GoalScored` is an event the engine delivers to
      its callback; `RegionUpdated` is a trace record, not a delivered event,
      noting that a region's own per-frame update ran, with the callback the
      region holds, which region it was, the time it was given and the balls
      it held when its update began. */
  datatype Event =
    | GoalScored(sink: CallBack, when: int, ball: Ball)
    | RegionUpdated(regionSink: Option<CallBack>, goalRegion: bool, now: int, balls: seq<Ball>)

  /** A ball with its owning-region back-reference forgotten; two lists hold
      the same balls, whoever owns them, when their untagged forms agree. */
  function Untagged(b: Ball): Ball {
    b.(region := NoRegion)
  }

  /** A list with every back-reference cleared: the same balls in the same
      order, each differing from the original in its owning region only. */
  function UntagAll(s: seq<Ball>): (r: seq<Ball>)
    ensures |r| == |s|
    ensures forall i :: 0 <= i < |s| ==> r[i].region == NoRegion && r[i].(region := s[i].region) == s[i]
  {
    seq(|s|, i requires 0 <= i < |s| => Untagged(s[i]))
  }

  lemma UntagAllAppend(a: seq<Ball>, b: seq<Ball>)
    ensures UntagAll(a + b) == UntagAll(a) + UntagAll(b)
  {
  }
}

=== FILE: engine.dfy ===
/** The engine coordinator: it owns an outer region and a centred goal
    region, moves balls that enter the goal from the outer region into the
    goal region once per frame, and rebuilds both regions on reset.

    A region's own per-frame physics is not part of this model: a region
    update only records, in the event log, that it ran (with the callback the
    region holds, which region it was, the time and the balls it held) and
    adopts the new time. The random source is a sequence of draws supplied by
    the caller, consumed three per ball (angle, x, y). */
module BallEngine {
  import opened Results
  import opened Geometry
  import opened Balls
  import opened Transfer

  /** Java's `Math.PI`. */
  const Pi: real := 3.141592653589793

  /** A ball region as the engine sees it: its bounds, its ball list, its
      time base (unknown until first set), whether it is the goal region, and
      the callback it was given when it was built. */
  datatype Region = Region(
    bounds: Rect,
    balls: seq<Ball>,
    now: Option<int>,
    isGoal: bool,
    callBack: Option<CallBack>)

  datatype Regions = Regions(outer: Region, goal: Region)

  /** The ways a call fails in the source: a region used before the first
      reset (a null region), a goal scored while no callback is installed (a
      null callback), and a negative ball count (a negative list capacity). */
  datatype Error = NotReset | NullCallBack | IllegalCapacity

  /** The engine: fixed bounds, ball radius and derived goal bounds; the
      installed callback; the two regions once a reset has happened; the log
      of events delivered so far; and the identity the next built ball gets. */
  datatype Engine = Engine(
    bounds: Rect,
    radius: real,
    goalBounds: Rect,
    callBack: Option<CallBack>,
    regions: Option<Regions>,
    log: seq<Event>,
    nextId: nat)

  /** Construction: stores the bounds and radius and derives the goal
      rectangle; no regions and no callback exist yet. */
  function New(minX: real, maxX: real, minY: real, maxY: real, radius: real): (e: Engine)
    ensures e.bounds == Rect(minX, maxX, minY, maxY) && e.radius == radius
    ensures e.goalBounds.maxX - e.goalBounds.minX == (maxX - minX) / 4.0
    ensures e.goalBounds.maxY - e.goalBounds.minY == (maxY - minY) / 4.0
    ensures e.goalBounds.minX + e.goalBounds.maxX == minX + maxX
    ensures e.goalBounds.minY + e.goalBounds.maxY == minY + maxY
    ensures e.regions.None? && e.callBack.None? && e.log == []
  {
    var bounds := Rect(minX, maxX, minY, maxY);
    Engine(bounds, radius, GoalBounds(bounds), None, None, [], 0)
  }

  /** Installing a callback replaces the engine's own callback only; the
      regions keep the callback they were given at the last reset. */
  function SetCallBack(e: Engine, callBack: Option<CallBack>): (r: Engine)
    ensures r.callBack == callBack
    ensures r.regions == e.regions && r.log == e.log
    ensures r.bounds == e.bounds && r.goalBounds == e.goalBounds && r.radius == e.radius
  {
    e.(callBack := callBack)
  }

  /** Forces both regions' time base to `now`, with no physics step. */
  function SetNow(e: Engine, now: int): (r: Result<Engine, Error>)
    ensures r.Failure? <==> e.regions.None?
    ensures r.Failure? ==> r.error == NotReset
    ensures r.Success? ==> r.value.regions.Some? && r.value.(regions := e.regions) == e
    ensures r.Success? ==>
      var rs := r.value.regions.value;
      && rs.outer.now == rs.goal.now == Some(now)
      && rs.outer == e.regions.value.outer.(now := Some(now))
      && rs.goal == e.regions.value.goal.(now := Some(now))
  {
    match e.regions
    case None => Failure(NotReset)
    case Some(rs) =>
      Success(e.(regions := Some(Regions(rs.outer.(now := Some(now)), rs.goal.(now := Some(now))))))
  }

  /** The goal-scored events of one scan, sent to the engine's callback; with
      no callback installed there are none (a scan that moves a ball then
      fails instead). */
  function ScanEvents(callBack: Option<CallBack>, now: int, moved: seq<Ball>): seq<Event> {
    match callBack
    case None => []
    case Some(c) => GoalEvents(c, now, moved)
  }

  /** The goal-transfer scan of a frame on its own: the engine as it stands
      after every outer ball has been looked at and before either region's
      own update runs. It fails before the first reset, and when a ball would
      score while no callback is installed. Only the two ball lists and the
      event log change. */
  function Scan(e: Engine, now: int): (r: Result<Engine, Error>)
    ensures r.Failure? <==>
      || e.regions.None?
      || (e.callBack.None? && exists b :: b in e.regions.value.outer.balls && Qualifies(e.goalBounds, b))
    ensures r.Failure? ==> r.error == (if e.regions.None? then NotReset else NullCallBack)
    ensures r.Success? ==> r.value.regions.Some? && r.value.(regions := e.regions, log := e.log) == e
    ensures r.Success? ==>
      var rs := e.regions.value;
      var rs' := r.value.regions.value;
      && rs'.outer == rs.outer.(balls := rs'.outer.balls)
      && rs'.goal == rs.goal.(balls := rs'.goal.balls)
  {
    match e.regions
    case None => Failure(NotReset)
    case Some(rs) =>
      var moved := Take(e.goalBounds, rs.outer.balls);
      TakeNonEmpty(e.goalBounds, rs.outer.balls);
      if moved != [] && e.callBack.None? then Failure(NullCallBack)
      else
        var outer := rs.outer.(balls := Keep(e.goalBounds, rs.outer.balls));
        var goal := rs.goal.(balls := rs.goal.balls + Retag(moved));
        Success(e.(
          regions := Some(Regions(outer, goal)),
          log := e.log + ScanEvents(e.callBack, now, Retag(moved))))
  }

  /** The two region updates that close a frame, the outer region's first
      and then the goal region's. As far as this model sees a region's own
      update, the region adopts the frame time and leaves a trace record of
      its callback, its goal flag, the time and the balls it held when the
      update began; its physics, which moves balls and may drop those that
      leave, is not part of this model. */
  function RegionSteps(s: Engine, now: int): (r: Engine)
    requires s.regions.Some?
    ensures r.regions.Some? && r.(regions := s.regions, log := s.log) == s
    ensures var rs := s.regions.value;
      r.log == s.log + [RegionUpdated(rs.outer.callBack, rs.outer.isGoal, now, rs.outer.balls),
                        RegionUpdated(rs.goal.callBack, rs.goal.isGoal, now, rs.goal.balls)]
    ensures r.regions.value.outer.now == r.regions.value.goal.now == Some(now)
    ensures var rs := s.regions.value;
      var rs' := r.regions.value;
      && rs'.outer.(now := rs.outer.now) == rs.outer
      && rs'.goal.(now := rs.goal.now) == rs.goal
  {
    var rs := s.regions.value;
    s.(
      regions := Some(Regions(rs.outer.(now := Some(now)), rs.goal.(now := Some(now)))),
      log := s.log + [RegionUpdated(rs.outer.callBack, rs.outer.isGoal, now, rs.outer.balls),
                      RegionUpdated(rs.goal.callBack, rs.goal.isGoal, now, rs.goal.balls)])
  }

  /** The per-frame update: the goal-transfer scan runs to completion, and
      only then does the outer region update, followed by the goal region.
      It fails exactly when the scan fails. Apart from the ball lists, the
      regions keep their bounds, goal flags and callbacks, and both end the
      frame on the frame's time. */
  function Update(e: Engine, now: int): (r: Result<Engine, Error>)
    ensures r.Failure? <==>
      || e.regions.None?
      || (e.callBack.None? && exists b :: b in e.regions.value.outer.balls && Qualifies(e.goalBounds, b))
    ensures r.Failure? ==> r.error == (if e.regions.None? then NotReset else NullCallBack)
    ensures r.Success? ==> Scan(e, now).Success?
    ensures r.Success? ==> r.value.regions.Some? && r.value.(regions := e.regions, log := e.log) == e
    ensures r.Success? ==>
      var rs := e.regions.value;
      var rs' := r.value.regions.value;
      && rs'.outer.bounds == rs.outer.bounds && rs'.outer.isGoal == rs.outer.isGoal
      && rs'.outer.callBack == rs.outer.callBack
      && rs'.goal.bounds == rs.goal.bounds && rs'.goal.isGoal == rs.goal.isGoal
      && rs'.goal.callBack == rs.goal.callBack
      && rs'.outer.now == rs'.goal.now == Some(now)
      && |e.log| <= |r.value.log| && r.value.log[..|e.log|] == e.log
  {
    match Scan(e, now)
    case Failure(err) => Failure(err)
    case Success(s) =>
      var r := RegionSteps(s, now);
      assert r.log == e.log + (r.log[|e.log|..]);
      Success(r)
  }

  /** The ball built for position `i` of a reset: it uses draws `3i`, `3i+1`
      and `3i+2` for its angle, x and y, in the order the source evaluates
      them. It is a fresh, free ball of the engine's radius created at `now`,
      with no owning region set; draws in [0, 1) place it in the outer
      rectangle, half-open at the upper edges, aimed in [0, 2 pi). */
  function NewBall(e: Engine, now: int, draws: seq<real>, i: nat): (b: Ball)
    requires 3 * i + 2 < |draws|
    ensures b.id == e.nextId + i && b.radius == e.radius && b.createdAt == now
    ensures !b.pressed && b.region == NoRegion
    ensures WellFormed(e.bounds) && 0.0 <= draws[3 * i + 1] < 1.0 && 0.0 <= draws[3 * i + 2] < 1.0 ==>
      e.bounds.minX <= b.x < e.bounds.maxX && e.bounds.minY <= b.y < e.bounds.maxY
    ensures 0.0 <= draws[3 * i] < 1.0 ==> 0.0 <= b.angle < 2.0 * Pi
  {
    DrawAimsWhenInRange(draws[3 * i]);
    DrawPlacesWhenInRange(draws[3 * i + 1], e.bounds.minX, e.bounds.maxX);
    DrawPlacesWhenInRange(draws[3 * i + 2], e.bounds.minY, e.bounds.maxY);
    Ball(
      e.nextId + i,
      draws[3 * i + 1] * (e.bounds.maxX - e.bounds.minX) + e.bounds.minX,
      draws[3 * i + 2] * (e.bounds.maxY - e.bounds.minY) + e.bounds.minY,
      draws[3 * i] * 2.0 * Pi,
      e.radius,
      now,
      false,
      NoRegion)
  }

  /** A draw in [0, 1) scaled by a positive extent gives a product `p` in
      [0, extent). */
  lemma DrawScales(d: real, extent: real, p: real)
    requires 0.0 <= d < 1.0 && 0.0 < extent && p == d * extent
    ensures 0.0 <= p < extent
  {
    assert (1.0 - d) * extent == extent - d * extent;
    assert 0.0 < (1.0 - d) * extent;
  }

  /** A draw in [0, 1) turned into an angle stays in [0, 2 pi). */
  lemma DrawAimsWhenInRange(d: real)
    ensures 0.0 <= d < 1.0 ==> 0.0 <= d * 2.0 * Pi < 2.0 * Pi
  {
    if 0.0 <= d < 1.0 {
      DrawScales(d, 2.0 * Pi, d * 2.0 * Pi);
    }
  }

  /** A draw in [0, 1) mapped onto a non-empty [lo, hi) stays in [lo, hi). */
  lemma DrawPlacesWhenInRange(d: real, lo: real, hi: real)
    ensures 0.0 <= d < 1.0 && lo < hi ==> lo <= d * (hi - lo) + lo < hi
  {
    if 0.0 <= d < 1.0 && lo < hi {
      DrawScales(d, hi - lo, d * (hi - lo));
    }
  }

  /** Rebuilds both regions: the outer region over the outer bounds with
      `numBalls` freshly built balls, and an empty goal region over the goal
      bounds, both given the engine's current callback. A negative count
      fails, as a negative list capacity does in the source. The draws stand
      for the random source and must cover every ball. */
  function Reset(e: Engine, now: int, numBalls: int, draws: seq<real>): (r: Result<Engine, Error>)
    requires numBalls <= 0 || 3 * numBalls <= |draws|
    ensures r.Failure? <==> numBalls < 0
    ensures r.Failure? ==> r.error == IllegalCapacity
    ensures r.Success? ==>
      && r.value.regions.Some?
      && |r.value.regions.value.outer.balls| == numBalls
      && r.value.regions.value.goal.balls == []
      && r.value.nextId == e.nextId + numBalls
      && r.value.(regions := e.regions, nextId := e.nextId) == e
  {
    if numBalls < 0 then Failure(IllegalCapacity)
    else
      var balls := seq(numBalls, i requires 0 <= i < numBalls => NewBall(e, now, draws, i));
      var outer := Region(e.bounds, balls, None, false, e.callBack);
      var goal := Region(e.goalBounds, [], None, true, e.callBack);
      Success(e.(regions := Some(Regions(outer, goal)), nextId := e.nextId + numBalls))
  }

  /** Appends a ball built elsewhere to the outer region's list, leaving its
      back-reference as it was given. */
  function AddIncomingPuck(e: Engine, ball: Ball): (r: Result<Engine, Error>)
    ensures r.Failure? <==> e.regions.None?
    ensures r.Failure? ==> r.error == NotReset
    ensures r.Success? ==>
      && r.value.regions.Some?
      && |r.value.regions.value.outer.balls| == |e.regions.value.outer.balls| + 1
      && r.value.regions.value.outer.balls[|e.regions.value.outer.balls|] == ball
      && r.value.regions.value.outer.balls[..|e.regions.value.outer.balls|] == e.regions.value.outer.balls
      && r.value.regions.value.goal == e.regions.value.goal
      && r.value.(regions := e.regions) == e
      && r.value.regions.value.outer.(balls := e.regions.value.outer.balls) == e.regions.value.outer
  {
    match e.regions
    case None => Failure(NotReset)
    case Some(rs) =>
      var outer := rs.outer.(balls := rs.outer.balls + [ball]);
      assert outer.balls[..|rs.outer.balls|] == rs.outer.balls;
      Success(e.(regions := Some(Regions(outer, rs.goal))))
  }
}

=== FILE: engine_properties.dfy ===
/** Properties of the engine coordinator across its operations: the
    region invariant every operation keeps, what the per-frame update does to
    the two ball lists and to the event log, and what a reset builds. */
module EngineProperties {
  import opened Results
  import opened Geometry
  import opened Balls
  import opened Transfer
  import opened BallEngine

  /** The engine's standing invariant: the goal rectangle is the one derived
      from the outer bounds, and once regions exist the outer one is not the
      goal region and covers the outer bounds, the goal one is the goal
      region and covers the goal bounds, both share one time base, every ball
      in the goal list points back at the goal region and no ball in the
      outer list does. */
  ghost predicate Valid(e: Engine) {
    && e.goalBounds == GoalBounds(e.bounds)
    && (e.regions.Some? ==>
          var rs := e.regions.value;
          && !rs.outer.isGoal && rs.goal.isGoal
          && rs.outer.bounds == e.bounds && rs.goal.bounds == e.goalBounds
          && rs.outer.now == rs.goal.now
          && (forall b :: b in rs.goal.balls ==> b.region == GoalRegion)
          && (forall b :: b in rs.outer.balls ==> b.region != GoalRegion))
  }

  /** A ball list's contents once back-references are forgotten. */
  ghost function Contents(rs: Regions): multiset<Ball> {
    multiset(UntagAll(rs.outer.balls + rs.goal.balls))
  }

  lemma NewIsValid(minX: real, maxX: real, minY: real, maxY: real, radius: real)
    ensures Valid(New(minX, maxX, minY, maxY, radius))
  {
  }

  lemma SetCallBackPreservesValid(e: Engine, callBack: Option<CallBack>)
    requires Valid(e)
    ensures Valid(SetCallBack(e, callBack))
  {
  }

  lemma SetNowPreservesValid(e: Engine, now: int)
    requires Valid(e) && SetNow(e, now).Success?
    ensures Valid(SetNow(e, now).value)
  {
  }

  /** Reset establishes the invariant from any engine whose goal bounds were
      derived at construction. */
  lemma ResetEstablishesValid(e: Engine, now: int, numBalls: int, draws: seq<real>)
    requires e.goalBounds == GoalBounds(e.bounds)
    requires numBalls <= 0 || 3 * numBalls <= |draws|
    requires Reset(e, now, numBalls, draws).Success?
    ensures Valid(Reset(e, now, numBalls, draws).value)
  {
    var rs := Reset(e, now, numBalls, draws).value.regions.value;
    forall b | b in rs.outer.balls
      ensures b.region != GoalRegion
    {
      var i :| 0 <= i < |rs.outer.balls| && rs.outer.balls[i] == b;
    }
  }

  /** The update keeps the invariant: kept balls still do not point at the
      goal region, moved balls now do, and both regions adopt the same time. */
  lemma UpdatePreservesValid(e: Engine, now: int)
    requires Valid(e) && Update(e, now).Success?
    ensures Valid(Update(e, now).value)
  {
    var rs := e.regions.value;
    var rs' := Update(e, now).value.regions.value;
    PartitionSides(e.goalBounds, rs.outer.balls);
    var moved := Retag(Take(e.goalBounds, rs.outer.balls));
    assert rs'.goal.balls == rs.goal.balls + moved;
    forall b | b in rs'.goal.balls
      ensures b.region == GoalRegion
    {
      if b !in rs.goal.balls {
        var i :| 0 <= i < |moved| && moved[i] == b;
      }
    }
  }

  /** Adding an incoming puck keeps the invariant when the puck does not
      already point at the goal region; the engine itself does not check. */
  lemma AddIncomingPuckPreservesValid(e: Engine, ball: Ball)
    requires Valid(e) && AddIncomingPuck(e, ball).Success?
    requires ball.region != GoalRegion
    ensures Valid(AddIncomingPuck(e, ball).value)
  {
    var rs' := AddIncomingPuck(e, ball).value.regions.value;
    forall b | b in rs'.outer.balls
      ensures b.region != GoalRegion
    {
      if b != ball {
        assert b in e.regions.value.outer.balls;
      }
    }
  }

  /** The scan loses and duplicates no ball: across both regions the same
      balls are present before and after, up to their back-references. */
  lemma ScanConservesBalls(e: Engine, now: int)
    requires Scan(e, now).Success?
    ensures Contents(Scan(e, now).value.regions.value) == Contents(e.regions.value)
  {
    var g := e.goalBounds;
    var rs := e.regions.value;
    var rs' := Scan(e, now).value.regions.value;
    var kept := Keep(g, rs.outer.balls);
    var taken := Take(g, rs.outer.balls);
    assert rs'.outer.balls + rs'.goal.balls == kept + (rs.goal.balls + Retag(taken));
    UntagAllAppend(kept, rs.goal.balls + Retag(taken));
    UntagAllAppend(rs.goal.balls, Retag(taken));
    UntagRetag(taken);
    UntagAllAppend(rs.outer.balls, rs.goal.balls);
    PartitionIgnoresTags(g, rs.outer.balls);
    PartitionConserves(g, UntagAll(rs.outer.balls));
  }

  /** Once the scan is over the outer list holds exactly the scanned balls
      that do not qualify, so no free ball strictly inside the goal is left
      behind, and every held ball stays in the outer region whatever its
      position. The goal list keeps its old balls in front and gains the
      moved balls behind them, in scan order, each free, strictly inside the
      goal and pointing back at the goal region. */
  lemma ScanTransfers(e: Engine, now: int)
    requires Scan(e, now).Success?
    ensures var g := e.goalBounds;
      var rs := e.regions.value;
      var rs' := Scan(e, now).value.regions.value;
      && (forall b :: b in rs.outer.balls ==> (b in rs'.outer.balls <==> !Qualifies(g, b)))
      && (forall b :: b in rs'.outer.balls ==> b in rs.outer.balls && !Qualifies(g, b))
      && (forall b :: b in rs.outer.balls && b.pressed ==> b in rs'.outer.balls)
      && rs'.outer.balls == Keep(g, rs.outer.balls)
      && rs'.goal.balls[..|rs.goal.balls|] == rs.goal.balls
      && rs'.goal.balls[|rs.goal.balls|..] == Retag(Take(g, rs.outer.balls))
      && (forall i :: |rs.goal.balls| <= i < |rs'.goal.balls| ==>
            var m := rs'.goal.balls[i];
            m.region == GoalRegion && !m.pressed && StrictlyInside(g, m.x, m.y))
  {
    var g := e.goalBounds;
    var rs := e.regions.value;
    var rs' := Scan(e, now).value.regions.value;
    var taken := Take(g, rs.outer.balls);
    PartitionSides(g, rs.outer.balls);
    forall b | b in rs.outer.balls
      ensures b in rs'.outer.balls <==> !Qualifies(g, b)
    {
      PartitionMembership(g, rs.outer.balls, b);
    }
    assert rs'.goal.balls == rs.goal.balls + Retag(taken);
    assert rs'.goal.balls[..|rs.goal.balls|] == rs.goal.balls;
    assert rs'.goal.balls[|rs.goal.balls|..] == Retag(taken);
    forall i | |rs.goal.balls| <= i < |rs'.goal.balls|
      ensures rs'.goal.balls[i].region == GoalRegion
      ensures !rs'.goal.balls[i].pressed && StrictlyInside(g, rs'.goal.balls[i].x, rs'.goal.balls[i].y)
    {
      assert taken[i - |rs.goal.balls|] in taken;
    }
  }

  /** The update's effect on the event log: first one goal-scored event per
      ball the scan moved, carrying the engine's callback, the frame time and
      the ball as it sits in the goal list, in scan order; only after all of
      them, the outer region's update and then the goal region's update, each
      with the callback that region holds and the balls the scan left it. */
  lemma UpdateLog(e: Engine, now: int)
    requires Valid(e) && Update(e, now).Success?
    ensures var rs := e.regions.value;
      var e' := Update(e, now).value;
      var s := Scan(e, now).value.regions.value;
      var moved := s.goal.balls[|rs.goal.balls|..];
      && (moved != [] ==> e.callBack.Some? && ScanEvents(e.callBack, now, moved) == GoalEvents(e.callBack.value, now, moved))
      && |ScanEvents(e.callBack, now, moved)| == |moved|
      && e'.log == e.log + ScanEvents(e.callBack, now, moved)
                  + [RegionUpdated(rs.outer.callBack, false, now, s.outer.balls),
                     RegionUpdated(rs.goal.callBack, true, now, s.goal.balls)]
  {
    var rs := e.regions.value;
    var s := Scan(e, now).value.regions.value;
    var taken := Take(e.goalBounds, rs.outer.balls);
    assert s.goal.balls == rs.goal.balls + Retag(taken);
    assert s.goal.balls[|rs.goal.balls|..] == Retag(taken);
  }

  /** A ball the scan moves has left the outer list before the outer
      region's own update runs, and sits in the goal list, pointing at the
      goal region, when the goal region's update runs: the last two records
      of the frame carry it on the goal side only. Both regions end the frame
      on the frame's time. */
  lemma UpdateMovedBallsGetGoalPhysics(e: Engine, now: int)
    requires Valid(e) && Update(e, now).Success?
    ensures var rs := e.regions.value;
      var e' := Update(e, now).value;
      && |e'.log| >= 2
      && e'.log[|e'.log| - 2].RegionUpdated? && !e'.log[|e'.log| - 2].goalRegion
      && e'.log[|e'.log| - 1].RegionUpdated? && e'.log[|e'.log| - 1].goalRegion
      && (forall b :: b in rs.outer.balls && Qualifies(e.goalBounds, b) ==>
            && b !in e'.log[|e'.log| - 2].balls
            && b.(region := GoalRegion) in e'.log[|e'.log| - 1].balls)
      && e'.regions.value.outer.now == e'.regions.value.goal.now == Some(now)
  {
    var rs := e.regions.value;
    var s := Scan(e, now).value.regions.value;
    UpdateLog(e, now);
    ScanTransfers(e, now);
    var taken := Take(e.goalBounds, rs.outer.balls);
    forall b | b in rs.outer.balls && Qualifies(e.goalBounds, b)
      ensures b !in s.outer.balls && b.(region := GoalRegion) in s.goal.balls
    {
      PartitionMembership(e.goalBounds, rs.outer.balls, b);
      var i :| 0 <= i < |taken| && taken[i] == b;
      assert s.goal.balls[|rs.goal.balls| + i] == Retag(taken)[i];
    }
  }

  /** Replacing the callback after a reset splits the event stream: goal
      events of later frames go to the new callback, while the regions' own
      update events still go to the callbacks the regions were built with. */
  lemma SetCallBackSplitsEvents(e: Engine, callBack: CallBack, now: int)
    requires Valid(e) && e.regions.Some?
    requires Update(SetCallBack(e, Some(callBack)), now).Success?
    ensures var e' := Update(SetCallBack(e, Some(callBack)), now).value;
      && (forall i :: |e.log| <= i < |e'.log| && e'.log[i].GoalScored? ==> e'.log[i].sink == callBack)
      && (forall i :: |e.log| <= i < |e'.log| && e'.log[i].RegionUpdated? ==>
            e'.log[i].regionSink in {e.regions.value.outer.callBack, e.regions.value.goal.callBack})
  {
    var c := SetCallBack(e, Some(callBack));
    UpdateLog(c, now);
    var e' := Update(c, now).value;
    var s := Scan(c, now).value.regions.value;
    var moved := s.goal.balls[|e.regions.value.goal.balls|..];
    var scan := GoalEvents(callBack, now, moved);
    var tail := [RegionUpdated(e.regions.value.outer.callBack, false, now, s.outer.balls),
                 RegionUpdated(e.regions.value.goal.callBack, true, now, s.goal.balls)];
    assert e'.log == e.log + scan + tail;
    forall i | |e.log| <= i < |e'.log|
      ensures e'.log[i].GoalScored? ==> e'.log[i].sink == callBack
      ensures e'.log[i].RegionUpdated? ==>
        e'.log[i].regionSink in {e.regions.value.outer.callBack, e.regions.value.goal.callBack}
    {
      if i < |e.log| + |scan| {
        assert e'.log[i] == scan[i - |e.log|];
      } else {
        assert e'.log[i] == tail[i - |e.log| - |scan|];
      }
    }
  }

  /** What a reset builds: exactly `numBalls` balls in the outer region and
      none in the goal region; every ball has the engine's radius, the reset
      time as creation time, is not held, has no owning region set, and has
      a fresh identity, distinct from each other; both regions hold the engine's current callback. */
  lemma ResetPopulates(e: Engine, now: int, numBalls: int, draws: seq<real>)
    requires numBalls <= 0 || 3 * numBalls <= |draws|
    requires Reset(e, now, numBalls, draws).Success?
    ensures var e' := Reset(e, now, numBalls, draws).value;
      var rs' := e'.regions.value;
      && |rs'.outer.balls| == numBalls && rs'.goal.balls == []
      && rs'.outer.callBack == e.callBack && rs'.goal.callBack == e.callBack
      && rs'.outer.bounds == e.bounds && rs'.goal.bounds == e.goalBounds
      && (forall b :: b in rs'.outer.balls ==>
            && b.radius == e.radius && b.createdAt == now && !b.pressed
            && b.region == NoRegion && e.nextId <= b.id < e'.nextId)
      && (forall i, j :: 0 <= i < j < numBalls ==> rs'.outer.balls[i].id != rs'.outer.balls[j].id)
  {
    var rs' := Reset(e, now, numBalls, draws).value.regions.value;
    forall b | b in rs'.outer.balls
      ensures b.radius == e.radius && b.createdAt == now && !b.pressed
      ensures b.region == NoRegion && e.nextId <= b.id < e.nextId + numBalls
    {
      var i :| 0 <= i < |rs'.outer.balls| && rs'.outer.balls[i] == b;
    }
  }

  /** Where a reset places balls: given draws in [0, 1) and non-degenerate
      bounds, each ball starts inside the outer rectangle, half-open at the
      upper edges, with an angle in [0, 2 pi). */
  lemma ResetPlacement(e: Engine, now: int, numBalls: int, draws: seq<real>)
    requires WellFormed(e.bounds)
    requires numBalls <= 0 || 3 * numBalls <= |draws|
    requires forall i :: 0 <= i < |draws| ==> 0.0 <= draws[i] < 1.0
    requires Reset(e, now, numBalls, draws).Success?
    ensures var rs' := Reset(e, now, numBalls, draws).value.regions.value;
      forall b :: b in rs'.outer.balls ==>
        && e.bounds.minX <= b.x < e.bounds.maxX
        && e.bounds.minY <= b.y < e.bounds.maxY
        && 0.0 <= b.angle < 2.0 * Pi
  {
    var rs' := Reset(e, now, numBalls, draws).value.regions.value;
    forall b | b in rs'.outer.balls
      ensures e.bounds.minX <= b.x < e.bounds.maxX
      ensures e.bounds.minY <= b.y < e.bounds.maxY
      ensures 0.0 <= b.angle < 2.0 * Pi
    {
      var i :| 0 <= i < |rs'.outer.balls| && rs'.outer.balls[i] == b;
      assert b == NewBall(e, now, draws, i);
    }
  }

  /** An incoming puck is the only ball gained: across both regions the
      contents grow by exactly that ball, and nothing moves to the goal. */
  lemma AddIncomingPuckConserves(e: Engine, ball: Ball)
    requires AddIncomingPuck(e, ball).Success?
    ensures var rs' := AddIncomingPuck(e, ball).value.regions.value;
      && Contents(rs') == Contents(e.regions.value) + multiset{Untagged(ball)}
      && rs'.goal.balls == e.regions.value.goal.balls
  {
    var rs := e.regions.value;
    var rs' := AddIncomingPuck(e, ball).value.regions.value;
    UntagAllAppend(rs.outer.balls + [ball], rs.goal.balls);
    UntagAllAppend(rs.outer.balls, [ball]);
    UntagAllAppend(rs.outer.balls, rs.goal.balls);
  }
}

=== FILE: geometry.dfy ===
/** Axis-aligned rectangles of the playfield, the derivation of the centred
    goal rectangle from the outer one, and the open-boundary containment test
    used to decide that a ball has entered the goal. */
module Geometry {

  /** A rectangle given by its four bounds, as the engine stores them. */
  datatype Rect = Rect(minX: real, maxX: real, minY: real, maxY: real)

  /** Non-degenerate bounds: positive width and height. */
  predicate WellFormed(r: Rect) {
    r.minX < r.maxX && r.minY < r.maxY
  }

  /** The goal rectangle derived from the outer bounds: each side is moved in
      from the outer edge by half the outer extent and back out by half the
      goal extent, the goal extent being a quarter of the outer one. */
  function GoalBounds(outer: Rect): (g: Rect)
    ensures g.maxX - g.minX == (outer.maxX - outer.minX) / 4.0
    ensures g.maxY - g.minY == (outer.maxY - outer.minY) / 4.0
    ensures g.minX + g.maxX == outer.minX + outer.maxX
    ensures g.minY + g.maxY == outer.minY + outer.maxY
  {
    var regionWidth := outer.maxX - outer.minX;
    var regionHeight := outer.maxY - outer.minY;
    var goalWidth := regionWidth / 4.0;
    var goalHeight := regionHeight / 4.0;
    Rect(outer.minX + regionWidth / 2.0 - goalWidth / 2.0,
         outer.maxX - regionWidth / 2.0 + goalWidth / 2.0,
         outer.minY + regionHeight / 2.0 - goalHeight / 2.0,
         outer.maxY - regionHeight / 2.0 + goalHeight / 2.0)
  }

  /** For non-degenerate outer bounds the goal rectangle is itself
      non-degenerate and lies strictly inside the outer one, with a margin of
      three eighths of the outer extent on every side. */
  lemma GoalStrictlyInside(outer: Rect)
    requires WellFormed(outer)
    ensures var g := GoalBounds(outer);
      && WellFormed(g)
      && outer.minX < g.minX && g.maxX < outer.maxX
      && outer.minY < g.minY && g.maxY < outer.maxY
      && g.minX - outer.minX == outer.maxX - g.maxX == 3.0 * (outer.maxX - outer.minX) / 8.0
      && g.minY - outer.minY == outer.maxY - g.maxY == 3.0 * (outer.maxY - outer.minY) / 8.0
  {
  }

  /** A worked example: outer (0, 100, 0, 200) gives the goal
      (37.5, 62.5, 75, 125). */
  lemma GoalBoundsExample()
    ensures GoalBounds(Rect(0.0, 100.0, 0.0, 200.0)) == Rect(37.5, 62.5, 75.0, 125.0)
  {
  }

  /** Strict (open-boundary) containment of a point in a rectangle. */
  predicate StrictlyInside(r: Rect, x: real, y: real)
    ensures StrictlyInside(r, x, y) ==>
      && WellFormed(r)
      && x != r.minX && x != r.maxX && y != r.minY && y != r.maxY
  {
    r.minX < x && x < r.maxX && r.minY < y && y < r.maxY
  }

  /** The boundary is open: a point on any of the four edges is outside, while
      a point any positive distance inside the left edge, at a height strictly
      between the bottom and top, is inside as long as it stays left of the
      right edge. */
  lemma BoundaryIsOpen(r: Rect, x: real, y: real, eps: real)
    ensures x == r.minX || x == r.maxX || y == r.minY || y == r.maxY ==> !StrictlyInside(r, x, y)
    ensures 0.0 < eps && r.minX + eps < r.maxX && r.minY < y < r.maxY ==> StrictlyInside(r, r.minX + eps, y)
  {
  }
}

=== FILE: results.dfy ===
/** An optional value (Java's nullable references) and a result that is a
    value or an error (Java's exceptions). */
module Results {

  datatype Option<+T> = None | Some(value: T)

  datatype Result<+R, +E> = Success(value: R) | Failure(error: E)
}

=== FILE: transfer.dfy ===
/** The goal-transfer scan of the per-frame update: a partition of the outer
    region's ball list into the balls that stay and the balls that move into
    the goal region. `Keep` and `Take` are the reference (filter) definitions;
    `TransferScan` mirrors the source's remove-while-iterating loop and is
    proved to compute exactly them. */
module Transfer {
  import opened Geometry
  import opened Balls

  /** A ball is moved by the scan exactly when nobody is holding it and it
      lies strictly inside the goal rectangle. */
  predicate Qualifies(goal: Rect, b: Ball)
    ensures Qualifies(goal, b) ==> !b.pressed && WellFormed(goal)
  {
    !b.pressed && StrictlyInside(goal, b.x, b.y)
  }

  /** The balls the scan leaves in the outer list, in their original order. */
  function Keep(goal: Rect, s: seq<Ball>): (r: seq<Ball>)
    ensures |r| + |Take(goal, s)| == |s|
    ensures forall i :: 0 <= i < |r| ==> !Qualifies(goal, r[i])
    decreases |s|
  {
    if s == [] then []
    else
      var last := s[|s| - 1];
      Keep(goal, s[..|s| - 1]) + (if Qualifies(goal, last) then [] else [last])
  }

  /** The balls the scan removes from the outer list, in scan order. */
  function Take(goal: Rect, s: seq<Ball>): (r: seq<Ball>)
    ensures |r| <= |s|
    ensures forall i :: 0 <= i < |r| ==> Qualifies(goal, r[i])
    decreases |s|
  {
    if s == [] then []
    else
      var last := s[|s| - 1];
      Take(goal, s[..|s| - 1]) + (if Qualifies(goal, last) then [last] else [])
  }

  /** A moved ball with its back-reference pointed at the goal region. */
  function Retag(s: seq<Ball>): (r: seq<Ball>)
    ensures |r| == |s|
    ensures forall b :: b in r ==> b.region == GoalRegion
    ensures UntagAll(r) == UntagAll(s)
  {
    seq(|s|, i requires 0 <= i < |s| => s[i].(region := GoalRegion))
  }

  /** One goal-scored notification per moved ball, in the order given. */
  function GoalEvents(sink: CallBack, now: int, moved: seq<Ball>): (r: seq<Event>)
    ensures |r| == |moved|
    ensures forall ev :: ev in r ==> ev.GoalScored? && ev.sink == sink && ev.when == now && ev.ball in moved
  {
    seq(|moved|, i requires 0 <= i < |moved| => GoalScored(sink, now, moved[i]))
  }

  /** Keeping distributes over concatenation: the scan never reorders. */
  lemma {:induction false} KeepAppend(goal: Rect, a: seq<Ball>, b: seq<Ball>)
    ensures Keep(goal, a + b) == Keep(goal, a) + Keep(goal, b)
    decreases |b|
  {
    if b == [] {
      assert a + b == a;
    } else {
      var init := b[..|b| - 1];
      assert (a + b)[..|a + b| - 1] == a + init;
      KeepAppend(goal, a, init);
    }
  }

  /** Taking distributes over concatenation: moved balls keep scan order. */
  lemma {:induction false} TakeAppend(goal: Rect, a: seq<Ball>, b: seq<Ball>)
    ensures Take(goal, a + b) == Take(goal, a) + Take(goal, b)
    decreases |b|
  {
    if b == [] {
      assert a + b == a;
    } else {
      var init := b[..|b| - 1];
      assert (a + b)[..|a + b| - 1] == a + init;
      TakeAppend(goal, a, init);
    }
  }

  /** The scan loses and duplicates nothing: the kept and the moved balls
      together are exactly the balls scanned. */
  lemma {:induction false} PartitionConserves(goal: Rect, s: seq<Ball>)
    ensures multiset(Keep(goal, s)) + multiset(Take(goal, s)) == multiset(s)
    decreases |s|
  {
    if s != [] {
      var init := s[..|s| - 1];
      var last := s[|s| - 1];
      PartitionConserves(goal, init);
      assert s == init + [last];
      KeepTakeSnoc(goal, init, last);
    }
  }

  /** The scan invents nothing: every kept ball was scanned and does not
      qualify, and every moved ball was scanned and does qualify. */
  lemma {:induction false} PartitionSides(goal: Rect, s: seq<Ball>)
    ensures forall b :: b in Keep(goal, s) ==> b in s && !Qualifies(goal, b)
    ensures forall b :: b in Take(goal, s) ==> b in s && Qualifies(goal, b)
    decreases |s|
  {
    if s != [] {
      var init := s[..|s| - 1];
      var last := s[|s| - 1];
      PartitionSides(goal, init);
      assert s == init + [last];
      KeepTakeSnoc(goal, init, last);
    }
  }

  /** Every scanned ball ends up on exactly one side, decided by `Qualifies`:
      it stays if and only if it does not qualify, and moves if and only if
      it does. */
  lemma {:induction false} PartitionMembership(goal: Rect, s: seq<Ball>, b: Ball)
    requires b in s
    ensures b in Keep(goal, s) <==> !Qualifies(goal, b)
    ensures b in Take(goal, s) <==> Qualifies(goal, b)
    decreases |s|
  {
    var init := s[..|s| - 1];
    var last := s[|s| - 1];
    assert s == init + [last];
    KeepTakeSnoc(goal, init, last);
    if b in init {
      PartitionMembership(goal, init, b);
    } else {
      assert b == last;
      PartitionSides(goal, init);
    }
  }

  /** The scan moves something exactly when some scanned ball qualifies. */
  lemma TakeNonEmpty(goal: Rect, s: seq<Ball>)
    ensures Take(goal, s) != [] <==> exists b :: b in s && Qualifies(goal, b)
  {
    PartitionSides(goal, s);
    if b :| b in s && Qualifies(goal, b) {
      PartitionMembership(goal, s, b);
    }
  }

  /** A held ball is never moved, wherever it is; once released at a spot
      strictly inside the goal, the same ball is moved by the next scan. */
  lemma HeldBallExempt(goal: Rect, s: seq<Ball>, b: Ball)
    requires b in s && b.pressed
    ensures b in Keep(goal, s) && b !in Take(goal, s)
    ensures StrictlyInside(goal, b.x, b.y) ==>
      forall t :: b.(pressed := false) in t ==> b.(pressed := false) in Take(goal, t)
  {
    PartitionMembership(goal, s, b);
    var released := b.(pressed := false);
    forall t | released in t
      ensures StrictlyInside(goal, b.x, b.y) ==> released in Take(goal, t)
    {
      PartitionMembership(goal, t, released);
    }
  }

  /** Scanning one more ball extends the kept and the moved lists by at most
      that ball. */
  lemma KeepTakeSnoc(goal: Rect, s: seq<Ball>, b: Ball)
    ensures Keep(goal, s + [b]) == Keep(goal, s) + (if Qualifies(goal, b) then [] else [b])
    ensures Take(goal, s + [b]) == Take(goal, s) + (if Qualifies(goal, b) then [b] else [])
  {
    assert (s + [b])[..|s|] == s;
  }

  /** Since `Qualifies` ignores the back-reference, the partition commutes
      with forgetting it. */
  lemma {:induction false} PartitionIgnoresTags(goal: Rect, s: seq<Ball>)
    ensures UntagAll(Keep(goal, s)) == Keep(goal, UntagAll(s))
    ensures UntagAll(Take(goal, s)) == Take(goal, UntagAll(s))
    decreases |s|
  {
    if s != [] {
      var init := s[..|s| - 1];
      var last := s[|s| - 1];
      PartitionIgnoresTags(goal, init);
      assert s == init + [last];
      UntagAllAppend(init, [last]);
      assert UntagAll(s) == UntagAll(init) + [Untagged(last)];
      KeepTakeSnoc(goal, init, last);
      KeepTakeSnoc(goal, UntagAll(init), Untagged(last));
      var k := if Qualifies(goal, last) then [] else [last];
      var t := if Qualifies(goal, last) then [last] else [];
      UntagAllAppend(Keep(goal, init), k);
      UntagAllAppend(Take(goal, init), t);
    }
  }

  /** Forgetting the back-reference undoes retagging. */
  lemma UntagRetag(s: seq<Ball>)
    ensures UntagAll(Retag(s)) == UntagAll(s)
  {
  }

  /** One step of the scan over `outer`: the ball at position `scanned`
      extends exactly one of the two sides. */
  lemma ScanStep(goal: Rect, outer: seq<Ball>, scanned: nat)
    requires scanned < |outer|
    ensures outer[scanned..] == [outer[scanned]] + outer[scanned + 1..]
    ensures Keep(goal, outer[..scanned + 1])
         == Keep(goal, outer[..scanned]) + (if Qualifies(goal, outer[scanned]) then [] else [outer[scanned]])
    ensures Take(goal, outer[..scanned + 1])
         == Take(goal, outer[..scanned]) + (if Qualifies(goal, outer[scanned]) then [outer[scanned]] else [])
  {
    assert outer[..scanned + 1] == outer[..scanned] + [outer[scanned]];
    KeepTakeSnoc(goal, outer[..scanned], outer[scanned]);
  }

  /** The list under the cursor: removing the ball at the cursor joins what
      lies on either side, and stepping over it moves it to the kept part. */
  lemma CursorSplit(l: seq<Ball>, kept: seq<Ball>, b: Ball, rest: seq<Ball>)
    requires l == kept + ([b] + rest)
    ensures |kept| < |l| && l[|kept|] == b
    ensures l[..|kept|] + l[|kept| + 1..] == kept + rest
    ensures l == (kept + [b]) + rest
  {
    assert l[..|kept|] == kept;
    assert l[|kept| + 1..] == rest;
  }

  lemma RetagEventsSnoc(sink: CallBack, now: int, s: seq<Ball>, b: Ball)
    ensures Retag(s + [b]) == Retag(s) + [b.(region := GoalRegion)]
    ensures GoalEvents(sink, now, Retag(s + [b]))
         == GoalEvents(sink, now, Retag(s)) + [GoalScored(sink, now, b.(region := GoalRegion))]
  {
  }

  /** What the scan loop maintains after looking at the first `scanned`
      balls of `outer`: the list under the cursor is the kept prefix followed
      by the unscanned suffix, and the goal list and the event log have grown
      by the moved balls, in scan order. */
  ghost predicate ScanInvariant(goal: Rect, sink: CallBack, now: int, outer: seq<Ball>, goalBalls: seq<Ball>,
                                scanned: nat, kept: seq<Ball>, taken: seq<Ball>,
                                outer': seq<Ball>, goalBalls': seq<Ball>, events: seq<Event>)
  {
    && scanned <= |outer|
    && kept == Keep(goal, outer[..scanned])
    && taken == Take(goal, outer[..scanned])
    && outer' == kept + outer[scanned..]
    && goalBalls' == goalBalls + Retag(taken)
    && events == GoalEvents(sink, now, Retag(taken))
  }

  /** The loop body keeps `ScanInvariant`: the ball under the cursor is the
      next unscanned one, and removing it (when it qualifies) or stepping over
      it (when it does not) accounts for one more scanned ball. */
  lemma ScanInvariantStep(goal: Rect, sink: CallBack, now: int, outer: seq<Ball>, goalBalls: seq<Ball>,
                          scanned: nat, kept: seq<Ball>, taken: seq<Ball>,
                          outer': seq<Ball>, goalBalls': seq<Ball>, events: seq<Event>)
    requires ScanInvariant(goal, sink, now, outer, goalBalls, scanned, kept, taken, outer', goalBalls', events)
    requires scanned < |outer|
    ensures |kept| < |outer'| && outer'[|kept|] == outer[scanned]
    ensures var b := outer[scanned];
      Qualifies(goal, b) ==>
        ScanInvariant(goal, sink, now, outer, goalBalls, scanned + 1, kept, taken + [b],
                      outer'[..|kept|] + outer'[|kept| + 1..],
                      goalBalls' + [b.(region := GoalRegion)],
                      events + [GoalScored(sink, now, b.(region := GoalRegion))])
    ensures var b := outer[scanned];
      !Qualifies(goal, b) ==>
        ScanInvariant(goal, sink, now, outer, goalBalls, scanned + 1, kept + [b], taken,
                      outer', goalBalls', events)
  {
    var b := outer[scanned];
    ScanStep(goal, outer, scanned);
    CursorSplit(outer', kept, b, outer[scanned + 1..]);
    RetagEventsSnoc(sink, now, taken, b);
  }

  /** The source's loop: walk the outer list with a cursor; a ball that is not
      held and lies strictly inside the goal is removed in place (the cursor
      stays put), appended to the goal list with its back-reference set to the
      goal region, and announced with one goal-scored event; any other ball is
      stepped over. */
  method TransferScan(goal: Rect, sink: CallBack, now: int, outer: seq<Ball>, goalBalls: seq<Ball>)
    returns (outer': seq<Ball>, goalBalls': seq<Ball>, events: seq<Event>)
    ensures outer' == Keep(goal, outer)
    ensures goalBalls' == goalBalls + Retag(Take(goal, outer))
    ensures events == GoalEvents(sink, now, Retag(Take(goal, outer)))
  {
    outer' := outer;
    goalBalls' := goalBalls;
    events := [];
    var cursor := 0;
    ghost var scanned := 0;
    ghost var kept: seq<Ball> := [];
    ghost var taken: seq<Ball> := [];
    while cursor < |outer'|
      invariant ScanInvariant(goal, sink, now, outer, goalBalls, scanned, kept, taken, outer', goalBalls', events)
      invariant cursor == |kept|
      decreases |outer'| - cursor
    {
      ScanInvariantStep(goal, sink, now, outer, goalBalls, scanned, kept, taken, outer', goalBalls', events);
      var ball := outer'[cursor];
      if !ball.pressed {
        if StrictlyInside(goal, ball.x, ball.y) {
          outer' := outer'[..cursor] + outer'[cursor + 1..];
          var moved := ball.(region := GoalRegion);
          goalBalls' := goalBalls' + [moved];
          events := events + [GoalScored(sink, now, moved)];
          taken := taken + [ball];
        } else {
          kept := kept + [ball];
          cursor := cursor + 1;
        }
      } else {
        kept := kept + [ball];
        cursor := cursor + 1;
      }
      scanned := scanned + 1;
    }
    assert |outer'| == |kept| + |outer| - scanned;
    assert outer[..scanned] == outer;
  }
}
